=== FILE: README.md ===
# crossfit-wod sync backend, modelled in Dafny

The crossfit-wod backend keeps one JSON table of user profiles keyed by
nickname. Each profile holds two record collections, `workoutRecords` and
`personalRecords`, and a `createdAt` stamp. The backend serves a small JSON API
on top of that table:

- check whether a nickname exists;
- read a profile;
- create a profile;
- list all nicknames;
- sync a batch of workout or personal records into a user's collection.

A sync is an insert-or-replace merge keyed by record id. The server builds a
dictionary from the stored records. It then writes each incoming record at
its id and stores the dictionary's values. Every change rewrites the whole
data file while still holding the single process-wide lock.

The repository has two copies of the same API: a raw `http.server` handler
(`server/combined_server.py`) and a Flask app (`app.py`). The model covers
both.

| module (file) | models |
|---|---|
| `Wrappers` (wrappers.dfy) | `Option` |
| `Sequences` (sequences.dfy) | distinct elements, first-occurrence deduplication, and the facts the merge proofs need about them |
| `Merger` (merger.dfy) | records, the dictionary writes of a sync (`Upsert`, `UpsertAll`), `Merge`, and the loop form the server runs (`MergeLoop`). It also holds the reference definition `DictOf`: the dictionary that a given sequence of writes produces. |
| `MergeLaws` (merge_laws.dfy) | the laws of the merge: last write wins, no record lost, order of keys, idempotence, sequential composition, disjoint batches commute, and the two worked examples |
| `UserRegistry` (registry.dfy) | the user table with its key order, exists / get / get-or-create / list, and the sync of one collection |
| `Api` (api.dfy) | the raw handler: the data file, start-up loading, requests, responses and status codes, one request as one atomic step, and runs of requests |
| `FlaskApp` (flask_app.dfy) | the six Flask views, each proved to agree with the raw handler on the same parsed request (the servers' query and body parsing differ; see "Left out") |

Modelling choices:

- **Record ids and payloads.** They are type parameters: `I` is the id type, `P` the rest of the record.
- **Dictionaries.** A Python dictionary is modelled with its insertion order. The merged records are a sequence with distinct ids, listed in order of first occurrence. The user table is a map plus the sequence of nicknames in creation order.
- **Clock.** The creation time is a parameter `now`.
- **Data file.** It is a value: `Missing`, `Corrupt`, or `Saved(table)`.
- **The lock.** A request handled under it is one pure transition `Handle(server, request, now)`. Concurrency is the sequence of requests in the order the lock admits them (`Run`).

Points where the model follows the code closely:

- **Nickname listing.** The order is not left open. `ListNicknames` is the dictionary's key order, which is creation order.
- **Creating a user.** The raw server's `POST /api/user` saves the table even when the user already exists (`combined_server.py:130-138`). The Flask view does the same (`app.py:81-89`). The model's `Handle` does too.
- **Syncing a new user.** A sync for an unknown user creates the profile and saves it only after the merge, in the same critical section. It never saves the empty profile on its own.

## Model

| member | source | states |
|---|---|---|
| `Merger.Find` | server/combined_server.py:163 | The dictionary lookup: a found position holds a record with that id, and "not found" means the id is absent |
| `Merger.Upsert` | server/combined_server.py:162-163 | Writing one record at its key: ids stay distinct. A present key keeps its place and takes the new record whole. A new key is appended. Every other record stays where it was |
| `Merger.UpsertAll` | server/combined_server.py:161-163 | Writing a batch in order keeps the keys distinct |
| `Merger.Merge` | server/combined_server.py:161-164 | The merged collection never holds two records with the same id |
| `Merger.MergeWrites` | server/combined_server.py:161-164 | The merge is exactly the dictionary that writing the existing records, then the incoming ones, produces (`DictOf`): ids in order of first occurrence, each with the last record written for it |
| `Merger.MergeLoop` | server/combined_server.py:161-164 | The two loops the server runs (build from the existing records, then write each incoming one) compute `Merge` |
| `Merger.UpsertStep` | server/combined_server.py:163 | One more write keeps the dictionary equal to the one its writes determine |
| `Merger.UpsertAllBuilds` | server/combined_server.py:162-163 | Writing a batch into the dictionary of some writes gives the dictionary of those writes followed by the batch |
| `Merger.DictOfDeterminate` | server/combined_server.py:161-164 | The sequence of writes determines the dictionary uniquely |
| `Merger.DictOfRepeat` | server/combined_server.py:162-163 | Repeating the last batch of writes leaves the dictionary as it was |
| `Merger.DictOfAsMap` | server/combined_server.py:161-164 | A dictionary has the same id-to-record view as the writes that built it |
| `Merger.DictOfSelf` | server/combined_server.py:161 | A stored collection without repeated ids is its own dictionary |
| `Merger.BuildOfUnique` | server/combined_server.py:161 | Building a dictionary from a stored collection without repeated ids gives that collection back, order included |
| `Merger.LastWithAppend` | server/combined_server.py:162-163 | For every id a later batch contains, that batch decides the last write. For any other id, the earlier batch does |
| `Merger.AsMapAppend` | server/combined_server.py:162-163 | The view of two batches written in turn is the first view overridden by the second |
| `MergeLaws.MergeIdSet` | server/combined_server.py:161-164 | The merged ids are exactly the union of the stored and the incoming ids: nothing is dropped except by same-id replacement |
| `MergeLaws.MergeLastWins` | server/combined_server.py:162-163 | Each merged record is the last incoming record with its id, replaced whole. An id the batch does not mention keeps the last stored record |
| `MergeLaws.MergeAsMap` | server/combined_server.py:161-164 | As a map from id to record, the merge is the stored view overridden by the incoming view |
| `MergeLaws.MergeKeepsUntouched` | server/combined_server.py:161-164 | If the stored ids are distinct, every stored record whose id the batch does not mention survives unchanged, and the last incoming record for every incoming id is stored |
| `MergeLaws.MergeOrder` | server/combined_server.py:161-164 | Stored ids come first in their order, then the new ids in order of first arrival |
| `MergeLaws.MergeSequential` | server/combined_server.py:161-164 | Two syncs in a row store what one sync of the concatenated batches stores |
| `MergeLaws.MergeAfterMerge` | server/combined_server.py:161-164 | Merging into a merge result continues the same sequence of dictionary writes |
| `MergeLaws.MergeIdempotent` | server/combined_server.py:161-164 | Sending the same batch again stores what sending it once stored |
| `MergeLaws.MergeNoIncoming` | server/combined_server.py:161-164 | An empty batch only removes repeated stored ids, and leaves a collection without repeats exactly as it was |
| `MergeLaws.MergeSize` | server/combined_server.py:161-164 | The merged collection has one record per distinct id of the two batches |
| `MergeLaws.MergeTwoBatches` | server/combined_server.py:161-164 | Merging two batches at once keeps every id of the stored collection and of both batches, with a count equal to the size of their union |
| `MergeLaws.MergeDisjointCommute` | app.py:118-121 | Batches with disjoint ids give the same ids and the same records whichever is merged first |
| `MergeLaws.OverrideExample` | app.py:118-121 | Stored `[{id 1, "a"}]` merged with incoming `[{id 1, "b"}]` gives `[{id 1, "b"}]`: a full replace, not a field merge |
| `MergeLaws.UnionExample` | app.py:118-121 | Stored `[{id 1}]` merged with incoming `[{id 2}]` keeps both, stored first |
| `UserRegistry.Exists` | server/combined_server.py:78 | Membership of a nickname in the table. `ExistsMatchesList` proves that it agrees with the listing, and `GetProbe` that only existing users read back stamped |
| `UserRegistry.Get` | server/combined_server.py:91-96 | The read-only probe. `GetProbe` proves that an unknown nickname reads as the zero-value profile and a known one as its stored, stamped profile, and `Api.UnknownUserProbe` that reading stores nothing |
| `UserRegistry.ListNicknames` | server/combined_server.py:103 | The table's keys in insertion order. `ListNicknamesExact` proves that it names every stored user exactly once |
| `Api.Load` | server/combined_server.py:16-23 | Start-up loading. `BootDurable` proves that a saved file gives back the table it holds and that a missing or unreadable one gives the empty table |
| `UserRegistry.GetOrCreate` | server/combined_server.py:153-159 | An unknown nickname gets a new empty profile stamped `now`, appended to the listing. A known one is left exactly as it is. Every other user is unchanged, and the user exists afterwards |
| `UserRegistry.SyncRecords` | server/combined_server.py:152-166 | The answer is the collection as stored, namely the merge of the user's previous collection (empty for a new user) with the batch. The other collection, the stamp and the nickname are kept. The listing is as get-or-create leaves it, and no other user changes |
| `UserRegistry.ExistsMatchesList` | server/combined_server.py:78 | A nickname exists exactly when it is in the listing |
| `UserRegistry.ListNicknamesExact` | server/combined_server.py:101-103 | The listing names every stored user exactly once |
| `UserRegistry.GetProbe` | server/combined_server.py:90-96 | An unknown nickname reads as the zero-value profile with no stamp, and a known one reads as its stamped profile |
| `UserRegistry.GetOrCreateIdempotent` | server/combined_server.py:130-137 | Creating twice is creating once; the second call never changes the first stamp |
| `UserRegistry.GetOrCreatePreservesValid` | server/combined_server.py:131-137 | Creating keeps the table well formed: the listing matches the keys without repeats, each profile is under its own nickname with a stamp, and its collections have distinct ids |
| `UserRegistry.SyncPreservesValid` | server/combined_server.py:152-166 | A sync keeps the table well formed |
| `UserRegistry.SyncStoresLastWrites` | server/combined_server.py:189-192 | The stored collection is the dictionary that writing the old collection, then the batch, produces |
| `UserRegistry.SyncIdempotent` | server/combined_server.py:180-194 | Re-sending a sync leaves the table and the answer exactly as after the first send |
| `UserRegistry.SyncTwice` | server/combined_server.py:152-166 | The second of two serialized syncs answers the merge of the stored collection with both batches in order |
| `UserRegistry.SerializedSyncsLoseNothing` | server/combined_server.py:152-166 | Two serialized syncs for one user lose no record of either batch: the collection holds every id of the stored collection and both batches, and its size is the size of their union |
| `Api.Handle` | server/combined_server.py:67-201 | GETs never change the server, and nor does any non-200 answer. The answer is 400 exactly when the body is not JSON or a needed nickname is missing or empty. It is 404 exactly for an unknown route that was not rejected. A successful POST leaves the data file equal to the table, and a durable server stays durable |
| `Api.BootDurable` | server/combined_server.py:16-29 | Start-up loads what the file holds, and a missing or unreadable file gives an empty table |
| `Api.RunDurable` | server/combined_server.py:138 | From a durable state, any run of requests leaves the file holding the table in memory |
| `Api.RestartAfterRun` | server/combined_server.py:165 | After any run of requests from a start-up, restarting on the data file reproduces the running server exactly |
| `Api.HandlePreservesValid` | server/combined_server.py:112-201 | Every request keeps the table well formed |
| `Api.RunPreservesValid` | server/combined_server.py:112-201 | Every run of requests keeps the table well formed |
| `Api.EmptyValid` | server/combined_server.py:22-23 | The empty table a failed load starts with is well formed |
| `Api.CheckAnswersListing` | server/combined_server.py:70-81 | `check` answers whether the nickname is in the listing that `users` returns |
| `Api.UnknownUserProbe` | server/combined_server.py:70-99 | A nickname that is not listed is reported absent and reads as the zero-value profile with no stamp, and the server is left unchanged |
| `Api.CreateThenRead` | server/combined_server.py:123-141 | After a successful create, `check` says the user exists, `users` lists it, and `user` reads it back with a stamp |
| `Api.CreateIdempotent` | server/combined_server.py:130-141 | Repeating a create request answers the same and leaves the server as the first one did |
| `Api.SyncRequestIdempotent` | server/combined_server.py:143-197 | Repeating a sync request answers the same and leaves the server as the first one did |
| `Api.SyncThenRead` | server/combined_server.py:143-197 | On either sync route, the answer is what a later read of the user shows for the synced collection |
| `FlaskApp.CheckNickname` | app.py:46-55 | Gives the raw handler's answer to `GET /api/check` and changes nothing |
| `FlaskApp.GetUser` | app.py:57-71 | Gives the raw handler's answer to `GET /api/user` and changes nothing |
| `FlaskApp.CreateUser` | app.py:73-91 | Same server change and answer as the raw handler's `POST /api/user` |
| `FlaskApp.GetUsers` | app.py:93-98 | Gives the raw handler's answer to `GET /api/users`, whatever the query |
| `FlaskApp.SyncWorkouts` | app.py:100-125 | Same server change and answer as the raw handler's `POST /api/sync/workouts` |
| `FlaskApp.SyncPr` | app.py:127-152 | Same server change and answer as the raw handler's `POST /api/sync/pr` |

## Left out

- HTTP plumbing: headers, CORS, OPTIONS, `Content-Length` and response encoding. Responses are datatypes, and `Status` gives their code.
- Paths outside `/api/`: static files, the single-page fallback document, and the raw server's 404 for a POST outside `/api/`. These are a separate collaborator of the core.
- Flask's routing of unknown `/api/...` paths: its catch-all static route answers those GETs with the fallback document, not 404. The Flask views themselves are modelled; Flask's dispatch is not.
- Flask's own rejections of a body: its 400 page for unparsable JSON (modelled as `BadRequest(InvalidJson)`, same status, different text), and its 415 for a missing JSON content type. An empty POST body is an empty object for the raw server, while Flask rejects an empty JSON body as unparsable. `Body` is the request after this classification.
- Ill-typed JSON shapes: a body that is not an object, a `records` member that is not a list, and a record that is not an object or has no `id`. `Body` and `Record` admit only the well-typed shapes. In the source these cases go as follows:
  - An empty `records` value that is not a list, such as `""` or `{}`, iterates over nothing (`server/combined_server.py:162`, `app.py:119`). It behaves like an empty batch, which `Body` cannot express: both servers answer 200 with the stored collection, deduplicated.
  - The failures happen only on a known route. A non-object body POSTed to an unknown `/api/` path gets the raw server's JSON 404 (`server/combined_server.py:199-201`), because `data.get` runs only inside the known routes. Ill-typed `records` with a missing or empty nickname gets 400 (`server/combined_server.py:147-150`, `app.py:106-107`), because the nickname check runs before the merge loop.
  - On a known route with a given nickname, the raw server sends no response at all. A non-object body, a `records` value that is `null`, a number, a boolean, or a non-empty string or object, or a record that is not an object, has no `id`, or has an `id` that is a list or object raises an exception. An unhashable `id` fails at the dictionary write (`server/combined_server.py:163`, `server/combined_server.py:191`, `app.py:120`, `app.py:147`). The server is a plain `HTTPServer` (`server/combined_server.py:210`), so the exception reaches the socket server's error handler, which closes the connection.
  - In the same cases Flask answers 500. A falsy body (`null`, `[]`, `0`, `false`, `""`) becomes `{}` through `or {}` (`app.py:75`, `app.py:102`, `app.py:129`), so Flask answers 400 "nickname required".
  - A sync whose batch fails inside the merge loop (`server/combined_server.py:162-163`, `app.py:119-120`) has already stored the new profile for an unknown nickname (`server/combined_server.py:153-159`, `app.py:110-116`). The save (`server/combined_server.py:165`, `app.py:122`) is never reached. So `check` and `users` report a user that a restart loses.
- Saves that fail because of what the table holds. Strings here are sequences of Unicode scalar values, so a lone surrogate such as the JSON escape `\ud800` cannot occur, and a save is assumed never to fail. In the source:
  - `json.loads` accepts such a string. `POST /api/user` then stores the profile (`server/combined_server.py:131-137`), and a sync stores records whose payload holds one.
  - `save_data` opens the file with `'w'`, which truncates it (`server/combined_server.py:26`). `json.dump` with `ensure_ascii=False` then raises `UnicodeEncodeError` while writing the string to the UTF-8 file (`server/combined_server.py:27`, `app.py:28-29`).
  - The raw server sends no response, and Flask answers 500.
  - The file is left holding partial JSON. The next start-up reads it as unreadable (`server/combined_server.py:21-22`, `app.py:23-24`) and starts empty, so every user is lost. The bad profile stays in memory, so every later save fails the same way. The error does not stay local to one request.
- Api.Handle: `Malformed` stands for a body that is UTF-8 text which `json.loads` rejects, so "the answer is 400 exactly when the body is not JSON" holds for such bodies only. The raw server decodes the body as UTF-8 (`server/combined_server.py:114`) before, and outside, the `try` that catches only `json.JSONDecodeError` (`server/combined_server.py:116-121`). A body that is not UTF-8, such as the single byte `0xFF`, raises `UnicodeDecodeError` on every `/api/` POST path, known or not. The raw server then sends no response, so no 400 and no 404, and changes nothing; Flask's `get_json` answers 400 for it. Also, "no non-200 answer changes the server" and "a successful POST leaves the data file equal to the table" are proved only for the request shapes `Body` admits and for saves that succeed. The failed sync and the failed save above change the table without answering and without a saved file.
- Api.RunDurable: "the file holds the table in memory after any run" assumes every save succeeds. A failed save leaves memory and file apart.
- Api.RestartAfterRun: "a restart reproduces the running server" holds only for those shapes and successful saves too. The failed sync leaves a profile in memory that is missing from the file. A failed save leaves a truncated file that restarts as an empty table.
- Query parsing: `HttpGet.query` is the nickname as each server extracts it from the query string. The two servers extract it differently:
  - The raw server's `parse_qs` (`server/combined_server.py:68`, `server/combined_server.py:71`) drops blank values and takes the first remaining one.
  - Flask's `request.args.get` (`app.py:48`, `app.py:59`) takes the first value, blank or not.
  - For `?nickname=&nickname=bob`, the raw server answers for `bob`, while Flask sees `""` and answers 400. `FlaskApp.CheckNickname` and `FlaskApp.GetUser` agree with the raw handler only on the same extracted value.
- Nicknames that are not strings. Nicknames here are strings; a missing or empty one is the falsy case. In the source:
  - A non-zero number or `true` is truthy and hashable, so Python accepts it as a key. It comes back as a string key after a save and reload.
  - A non-empty list or object is truthy too, so it passes the nickname check (`server/combined_server.py:125`, `server/combined_server.py:147`, `server/combined_server.py:175`). The lookup `nickname not in user_data` (`server/combined_server.py:131`, `server/combined_server.py:153`, `server/combined_server.py:181`, `app.py:82`, `app.py:110`, `app.py:137`) then raises `TypeError` because the value is unhashable. The raw server sends no response, Flask answers 500, and the table is unchanged.
- Python's key equality across types (`1 == 1.0 == True`). Record ids are an abstract type with plain equality.
- Profiles in a loaded file that lack a collection key. The source reads such a collection as empty; here a profile always has both.
- File I/O and JSON serialisation: the data file is the value `Disk`. A save is the atomic replacement `disk := Saved(table)`, which never fails. A crash or an encoding error in the middle of the direct overwrite is not modelled; the encoding error is described above. Neither is the exception swallowed on a corrupt file.
- Threads and the lock: each request runs as one atomic step, and interleavings are the orders the lock can admit (`Run`).
- The clock and configuration: the creation time is the parameter `now`, and `datetime.now().isoformat()` is not modelled. File path, web directory and port are not modelled.
- Request logging (`log_message`) and server start-up (`run_server`, `app.run`).

=== FILE: api.dfy ===
/**
 The JSON API of the combined server: requests under /api/ read or change
 the user registry, and every change is written to the data file before the
 reply goes out. Each request is one atomic step from a server state to a
 server state and a reply; the clock reading is a parameter.
 */
module Api {
  import opened Wrappers
  import opened Merger
  import opened UserRegistry

  /** The data file: absent, unreadable, or holding the table as last saved. */
  datatype Disk<I, P> = Missing | Corrupt | Saved(contents: Registry<I, P>)

  /** Loading at start-up: a missing or unreadable file gives an empty table. */
  function Load<I, P>(disk: Disk<I, P>): Registry<I, P> {
    match disk
    case Saved(reg) => reg
    case _ => Empty()
  }

  /** The running server: the table in memory and the data file. */
  datatype Server<I, P> = Server(registry: Registry<I, P>, disk: Disk<I, P>)

  function Boot<I, P>(disk: Disk<I, P>): Server<I, P> {
    Server(Load(disk), disk)
  }

  /** Restarting the server now would bring back the table it holds. */
  ghost predicate Durable<I, P>(s: Server<I, P>) {
    Load(s.disk) == s.registry
  }

  /** A POST body, decoded as UTF-8 text: text that does not parse as JSON, or
      an object whose `nickname` and `records` members may be absent. An empty
      body reads as an empty object. */
  datatype Body<I, P> = Malformed | Object(nickname: Option<string>, records: Option<seq<Record<I, P>>>)

  /** A request under /api/, by method; a GET carries the `nickname` query parameter. */
  datatype Request<I, P> =
    | HttpGet(path: string, query: Option<string>)
    | HttpPost(path: string, body: Body<I, P>)

  const CheckPath := "/api/check"
  const UserPath := "/api/user"
  const UsersPath := "/api/users"
  const SyncWorkoutsPath := "/api/sync/workouts"
  const SyncPrPath := "/api/sync/pr"

  datatype Reason = NicknameRequired | InvalidJson

  datatype Response<I, P> =
    | ExistsReply(known: bool)
    | ProfileReply(profile: Profile<I, P>)
    | CreatedReply(created: string)
    | UsersReply(users: seq<string>)
    | SyncedReply(records: seq<Record<I, P>>)
    | BadRequest(reason: Reason)
    | NotFound

  function Status<I, P>(r: Response<I, P>): int {
    match r
    case BadRequest(_) => 400
    case NotFound => 404
    case _ => 200
  }

  /** A nickname counts only when present and non-empty. */
  predicate Given(nickname: Option<string>) {
    nickname.Some? && nickname.value != ""
  }

  /** The routes that take a nickname: both GETs on a user, and every POST route. */
  predicate NeedsNickname<I, P>(req: Request<I, P>) {
    match req
    case HttpGet(path, _) => path == CheckPath || path == UserPath
    case HttpPost(path, _) => path == UserPath || path == SyncWorkoutsPath || path == SyncPrPath
  }

  predicate KnownRoute<I, P>(req: Request<I, P>) {
    NeedsNickname(req) || (req.HttpGet? && req.path == UsersPath)
  }

  /** The nickname a request names: the query parameter, or the body's member. */
  function NicknameOf<I, P>(req: Request<I, P>): Option<string> {
    match req
    case HttpGet(_, query) => query
    case HttpPost(_, body) => if body.Object? then body.nickname else None
  }

  /** The request is turned away with 400: its body is not JSON, or it lacks a nickname it needs. */
  predicate Rejected<I, P>(req: Request<I, P>) {
    (req.HttpPost? && req.body.Malformed?) || (NeedsNickname(req) && !Given(NicknameOf(req)))
  }

  function HandleGet<I, P>(s: Server<I, P>, path: string, query: Option<string>): Response<I, P> {
    if path == CheckPath then
      if !Given(query) then BadRequest(NicknameRequired) else ExistsReply(Exists(s.registry, query.value))
    else if path == UserPath then
      if !Given(query) then BadRequest(NicknameRequired) else ProfileReply(Get(s.registry, query.value))
    else if path == UsersPath then
      UsersReply(ListNicknames(s.registry))
    else
      NotFound
  }

  /** A sync route: a missing `records` member is an empty batch. */
  function HandleSync<I(==), P>(s: Server<I, P>, nickname: Option<string>, records: Option<seq<Record<I, P>>>, kind: Kind, now: string)
    : (Server<I, P>, Response<I, P>)
  {
    if !Given(nickname) then (s, BadRequest(NicknameRequired))
    else
      var (reg, stored) := SyncRecords(s.registry, nickname.value, kind, records.GetOr([]), now);
      (Server(reg, Saved(reg)), SyncedReply(stored))
  }

  function HandlePost<I(==), P>(s: Server<I, P>, path: string, body: Body<I, P>, now: string): (Server<I, P>, Response<I, P>) {
    if body.Malformed? then (s, BadRequest(InvalidJson))
    else if path == UserPath then
      if !Given(body.nickname) then (s, BadRequest(NicknameRequired))
      else
        var reg := GetOrCreate(s.registry, body.nickname.value, now);
        (Server(reg, Saved(reg)), CreatedReply(body.nickname.value))
    else if path == SyncWorkoutsPath then HandleSync(s, body.nickname, body.records, Workouts, now)
    else if path == SyncPrPath then HandleSync(s, body.nickname, body.records, PersonalRecords, now)
    else (s, NotFound)
  }

  /**
   One API request. Reads and rejected requests leave the server as it was;
   a request that changes the table also saves it before answering, so the
   data file always holds what a restart would need.
   */
  function Handle<I(==), P>(s: Server<I, P>, req: Request<I, P>, now: string): (res: (Server<I, P>, Response<I, P>))
    ensures req.HttpGet? ==> res.0 == s
    ensures Status(res.1) != 200 ==> res.0 == s
    ensures Status(res.1) == 400 <==> Rejected(req)
    ensures Status(res.1) == 404 <==> !KnownRoute(req) && !Rejected(req)
    ensures req.HttpPost? && Status(res.1) == 200 ==> res.0.disk == Saved(res.0.registry)
    ensures Durable(s) ==> Durable(res.0)
  {
    match req
    case HttpGet(path, query) => (s, HandleGet(s, path, query))
    case HttpPost(path, body) => HandlePost(s, path, body, now)
  }

  /** A run of requests, each with the clock reading at its arrival, in the order the lock admits them. */
  datatype Call<I, P> = Call(req: Request<I, P>, now: string)

  function Run<I(==), P>(s: Server<I, P>, calls: seq<Call<I, P>>): Server<I, P> {
    if calls == [] then s
    else Handle(Run(s, calls[..|calls| - 1]), calls[|calls| - 1].req, calls[|calls| - 1].now).0
  }

  // ----- Persistence -----

  /** A freshly started server is durable whatever the file held. */
  lemma BootDurable<I, P>(disk: Disk<I, P>)
    ensures Durable(Boot(disk))
    ensures disk.Missing? || disk.Corrupt? ==> Boot(disk).registry == Empty()
  {
  }

  /** After any run of requests from a start-up, a restart brings back exactly the running server. */
  lemma {:induction false} RestartAfterRun<I, P>(disk: Disk<I, P>, calls: seq<Call<I, P>>)
    ensures Durable(Run(Boot(disk), calls))
    ensures Boot(Run(Boot(disk), calls).disk) == Run(Boot(disk), calls)
  {
    RunDurable(Boot(disk), calls);
  }

  lemma {:induction false} RunDurable<I, P>(s: Server<I, P>, calls: seq<Call<I, P>>)
    requires Durable(s)
    ensures Durable(Run(s, calls))
  {
    if calls != [] {
      RunDurable(s, calls[..|calls| - 1]);
    }
  }

  // ----- The table's shape -----

  /** Every request keeps the table well formed. */
  lemma HandlePreservesValid<I, P>(s: Server<I, P>, req: Request<I, P>, now: string)
    requires Valid(s.registry)
    ensures Valid(Handle(s, req, now).0.registry)
  {
    if req.HttpPost? && req.body.Object? && Given(req.body.nickname) {
      var n, batch := req.body.nickname.value, req.body.records.GetOr([]);
      if req.path == UserPath {
        GetOrCreatePreservesValid(s.registry, n, now);
      } else if req.path == SyncWorkoutsPath {
        SyncPreservesValid(s.registry, n, Workouts, batch, now);
      } else if req.path == SyncPrPath {
        SyncPreservesValid(s.registry, n, PersonalRecords, batch, now);
      }
    }
  }

  lemma {:induction false} RunPreservesValid<I, P>(s: Server<I, P>, calls: seq<Call<I, P>>)
    requires Valid(s.registry)
    ensures Valid(Run(s, calls).registry)
  {
    if calls != [] {
      var init := calls[..|calls| - 1];
      RunPreservesValid(s, init);
      HandlePreservesValid(Run(s, init), calls[|calls| - 1].req, calls[|calls| - 1].now);
    }
  }

  /** A server started on a missing or unreadable file holds a well-formed table. */
  lemma EmptyValid<I, P>()
    ensures Valid(Empty<I, P>())
  {
  }

  // ----- What the routes answer -----

  /** `check` answers whether the nickname is among the listed users. */
  lemma CheckAnswersListing<I, P>(s: Server<I, P>, nickname: string, now: string)
    requires Valid(s.registry)
    requires nickname != ""
    ensures Handle(s, HttpGet(CheckPath, Some(nickname)), now).1 == ExistsReply(nickname in Handle(s, HttpGet(UsersPath, None), now).1.users)
  {
  }

  /** An unknown nickname is reported absent and reads as the zero-value
      profile, and neither probe stores anything. */
  lemma UnknownUserProbe<I, P>(s: Server<I, P>, nickname: string, now: string)
    requires Valid(s.registry)
    requires nickname != "" && nickname !in ListNicknames(s.registry)
    ensures Handle(s, HttpGet(CheckPath, Some(nickname)), now) == (s, ExistsReply(false))
    ensures Handle(s, HttpGet(UserPath, Some(nickname)), now) == (s, ProfileReply(ZeroProfile(nickname)))
  {
  }

  /** After a successful create the user exists, is listed, and reads back as stamped. */
  lemma CreateThenRead<I, P>(s: Server<I, P>, nickname: string, now: string, later: string)
    requires Valid(s.registry)
    requires nickname != ""
    ensures var after := Handle(s, HttpPost(UserPath, Object(Some(nickname), None)), now).0;
      && Handle(after, HttpGet(CheckPath, Some(nickname)), later).1 == ExistsReply(true)
      && nickname in Handle(after, HttpGet(UsersPath, None), later).1.users
      && Handle(after, HttpGet(UserPath, Some(nickname)), later).1.profile.createdAt.Some?
  {
    var after := Handle(s, HttpPost(UserPath, Object(Some(nickname), None)), now).0;
    GetOrCreatePreservesValid(s.registry, nickname, now);
    assert Valid(after.registry);
  }

  /** Creating a user again answers the same and changes nothing. */
  lemma CreateIdempotent<I, P>(s: Server<I, P>, body: Body<I, P>, first: string, second: string)
    ensures var once := Handle(s, HttpPost(UserPath, body), first);
      Handle(once.0, HttpPost(UserPath, body), second) == once
  {
  }

  /** Re-sending a sync request answers the same and changes nothing. */
  lemma SyncRequestIdempotent<I, P>(s: Server<I, P>, path: string, body: Body<I, P>, first: string, second: string)
    requires path == SyncWorkoutsPath || path == SyncPrPath
    ensures var once := Handle(s, HttpPost(path, body), first);
      Handle(once.0, HttpPost(path, body), second) == once
  {
    if body.Object? && Given(body.nickname) {
      var kind := if path == SyncWorkoutsPath then Workouts else PersonalRecords;
      SyncIdempotent(s.registry, body.nickname.value, kind, body.records.GetOr([]), first, second);
    }
  }

  /** A sync answers what a later read of the user shows for the synced collection. */
  lemma SyncThenRead<I, P>(s: Server<I, P>, path: string, nickname: string, records: seq<Record<I, P>>, now: string, later: string)
    requires path == SyncWorkoutsPath || path == SyncPrPath
    requires nickname != ""
    ensures var (after, reply) := Handle(s, HttpPost(path, Object(Some(nickname), Some(records))), now);
      var profile := Handle(after, HttpGet(UserPath, Some(nickname)), later).1.profile;
      && reply.SyncedReply?
      && (if path == SyncWorkoutsPath then profile.workoutRecords else profile.personalRecords) == reply.records
  {
  }
}

=== FILE: flask_app.dfy ===
/**
 The Flask variant of the server: one view function per API route, sharing
 the same table and data file. Each view is stated against the combined
 server's handler for the same request: both variants change the server in
 the same way and give the same answer.
 */
module FlaskApp {
  import opened Wrappers
  import opened Merger
  import opened UserRegistry
  import opened Api

  /** A POST view first reads the JSON body; one that does not parse is turned away. */
  function ParsedOrRejected<I, P>(body: Body<I, P>): Option<Response<I, P>> {
    if body.Malformed? then Some(BadRequest(InvalidJson)) else None
  }

  function CheckNickname<I(==), P>(s: Server<I, P>, nickname: Option<string>): (reply: Response<I, P>)
    ensures forall now :: Handle(s, HttpGet(CheckPath, nickname), now) == (s, reply)
  {
    if !Given(nickname) then BadRequest(NicknameRequired)
    else ExistsReply(Exists(s.registry, nickname.value))
  }

  function GetUser<I(==), P>(s: Server<I, P>, nickname: Option<string>): (reply: Response<I, P>)
    ensures forall now :: Handle(s, HttpGet(UserPath, nickname), now) == (s, reply)
  {
    if !Given(nickname) then BadRequest(NicknameRequired)
    else ProfileReply(Get(s.registry, nickname.value))
  }

  function CreateUser<I(==), P>(s: Server<I, P>, body: Body<I, P>, now: string): (res: (Server<I, P>, Response<I, P>))
    ensures res == Handle(s, HttpPost(UserPath, body), now)
  {
    if ParsedOrRejected(body).Some? then (s, ParsedOrRejected(body).value)
    else if !Given(body.nickname) then (s, BadRequest(NicknameRequired))
    else
      var nickname := body.nickname.value;
      var reg := GetOrCreate(s.registry, nickname, now);
      (Server(reg, Saved(reg)), CreatedReply(nickname))
  }

  function GetUsers<I(==), P>(s: Server<I, P>): (reply: Response<I, P>)
    ensures forall query, now :: Handle(s, HttpGet(UsersPath, query), now) == (s, reply)
  {
    UsersReply(ListNicknames(s.registry))
  }

  /** Both sync views: ensure the user, merge the batch into one collection, save, answer. */
  function SyncView<I(==), P>(s: Server<I, P>, body: Body<I, P>, kind: Kind, now: string): (Server<I, P>, Response<I, P>) {
    if ParsedOrRejected(body).Some? then (s, ParsedOrRejected(body).value)
    else if !Given(body.nickname) then (s, BadRequest(NicknameRequired))
    else
      var nickname := body.nickname.value;
      var created := GetOrCreate(s.registry, nickname, now);
      var p := created.profiles[nickname];
      var merged := Merge(Collection(p, kind), body.records.GetOr([]));
      var reg := Registry(created.order, created.profiles[nickname := WithCollection(p, kind, merged)]);
      (Server(reg, Saved(reg)), SyncedReply(merged))
  }

  function SyncWorkouts<I(==), P>(s: Server<I, P>, body: Body<I, P>, now: string): (res: (Server<I, P>, Response<I, P>))
    ensures res == Handle(s, HttpPost(SyncWorkoutsPath, body), now)
  {
    SyncView(s, body, Workouts, now)
  }

  function SyncPr<I(==), P>(s: Server<I, P>, body: Body<I, P>, now: string): (res: (Server<I, P>, Response<I, P>))
    ensures res == Handle(s, HttpPost(SyncPrPath, body), now)
  {
    SyncView(s, body, PersonalRecords, now)
  }
}

=== FILE: merge_laws.dfy ===
/**
 Laws of the sync merge: last write wins per id, nothing is dropped but
 same-id replacements, existing ids keep their places and new ids follow in
 order of first arrival, and re-sending a batch changes nothing.
 */
module MergeLaws {
  import opened Sequences
  import opened Merger

  /** The merged ids are exactly the ids of either batch: the merge drops
      nothing but records replaced by a same-id record. */
  lemma MergeIdSet<I, P>(existing: seq<Record<I, P>>, incoming: seq<Record<I, P>>)
    ensures Elems(Ids(Merge(existing, incoming))) == Elems(Ids(existing)) + Elems(Ids(incoming))
  {
    MergeWrites(existing, incoming);
    IdsAppend(existing, incoming);
    DedupMember(Ids(existing + incoming));
  }

  /** Every id carries the last incoming record with that id, replaced
      whole; an id the batch does not mention carries the last existing record. */
  lemma MergeLastWins<I, P>(existing: seq<Record<I, P>>, incoming: seq<Record<I, P>>)
    ensures var merged := Merge(existing, incoming);
      forall k :: 0 <= k < |merged| ==>
        if merged[k].id in Ids(incoming) then merged[k] == LastWith(incoming, merged[k].id)
        else merged[k].id in Ids(existing) && merged[k] == LastWith(existing, merged[k].id)
  {
    var merged := Merge(existing, incoming);
    MergeWrites(existing, incoming);
    IdsAppend(existing, incoming);
    forall k | 0 <= k < |merged|
      ensures if merged[k].id in Ids(incoming) then merged[k] == LastWith(incoming, merged[k].id)
              else merged[k].id in Ids(existing) && merged[k] == LastWith(existing, merged[k].id)
    {
      var id := merged[k].id;
      assert id in Ids(existing + incoming);
      LastWithAppend(existing, incoming, id);
    }
  }

  /** The dictionary view of the merge is the existing view overridden by the
      incoming one: exactly what writing the batch into a dictionary does. */
  lemma MergeAsMap<I, P>(existing: seq<Record<I, P>>, incoming: seq<Record<I, P>>)
    ensures AsMap(Merge(existing, incoming)) == AsMap(existing) + AsMap(incoming)
  {
    MergeWrites(existing, incoming);
    DictOfAsMap(Merge(existing, incoming), existing + incoming);
    AsMapAppend(existing, incoming);
  }

  /** When the stored collection has no repeated ids, each of its records whose id
      the batch does not mention survives unchanged, and the last incoming record
      for every incoming id is stored. */
  lemma MergeKeepsUntouched<I, P>(existing: seq<Record<I, P>>, incoming: seq<Record<I, P>>)
    requires Unique(Ids(existing))
    ensures forall j :: 0 <= j < |existing| && existing[j].id !in Ids(incoming) ==>
      existing[j] in Merge(existing, incoming)
    ensures forall id :: id in Ids(incoming) ==> LastWith(incoming, id) in Merge(existing, incoming)
  {
    var merged := Merge(existing, incoming);
    MergeAsMap(existing, incoming);
    forall id | id in Ids(merged)
      ensures AsMap(merged)[id] in merged
    {
      var k :| 0 <= k < |Ids(merged)| && Ids(merged)[k] == id;
      LastWithUnique(merged, k);
    }
    forall id | id in Ids(incoming)
      ensures LastWith(incoming, id) in merged
    {
      assert id in AsMap(incoming);
      assert AsMap(merged)[id] == LastWith(incoming, id);
    }
    forall j | 0 <= j < |existing| && existing[j].id !in Ids(incoming)
      ensures existing[j] in merged
    {
      LastWithUnique(existing, j);
      assert existing[j].id in AsMap(existing);
      assert AsMap(merged)[existing[j].id] == existing[j];
    }
  }

  /** Existing ids keep their relative order and come first; ids new in the
      batch follow in order of their first incoming occurrence. */
  lemma MergeOrder<I, P>(existing: seq<Record<I, P>>, incoming: seq<Record<I, P>>)
    ensures Ids(Merge(existing, incoming)) == Dedup(Ids(existing)) + Dedup(Without(Ids(incoming), Ids(existing)))
    ensures Unique(Ids(existing)) ==>
      Ids(Merge(existing, incoming)) == Ids(existing) + Dedup(Without(Ids(incoming), Ids(existing)))
  {
    MergeWrites(existing, incoming);
    IdsAppend(existing, incoming);
    DedupSplit(Ids(existing), Ids(incoming));
    if Unique(Ids(existing)) {
      DedupOfUnique(Ids(existing));
    }
  }

  /** Two syncs in a row store what one sync of both batches, in that order, stores. */
  lemma MergeSequential<I, P>(existing: seq<Record<I, P>>, first: seq<Record<I, P>>, second: seq<Record<I, P>>)
    ensures Merge(Merge(existing, first), second) == Merge(existing, first + second)
  {
    var writes := existing + (first + second);
    MergeAfterMerge(existing, first, second);
    MergeWrites(existing, first + second);
    DictOfDeterminate(Merge(Merge(existing, first), second), Merge(existing, first + second), writes);
  }

  /** Merging into a merge result continues the same sequence of dictionary writes. */
  lemma MergeAfterMerge<I, P>(existing: seq<Record<I, P>>, first: seq<Record<I, P>>, second: seq<Record<I, P>>)
    ensures DictOf(Merge(Merge(existing, first), second), existing + (first + second))
  {
    assert (existing + first) + second == existing + (first + second);
    var m1 := Merge(existing, first);
    MergeWrites(existing, first);
    BuildOfUnique(m1);
    UpsertAllBuilds(m1, existing + first, second);
  }

  /** Sending the same batch twice stores what sending it once stores. */
  lemma MergeIdempotent<I, P>(existing: seq<Record<I, P>>, incoming: seq<Record<I, P>>)
    ensures Merge(Merge(existing, incoming), incoming) == Merge(existing, incoming)
  {
    var writes := existing + (incoming + incoming);
    assert (existing + incoming) + incoming == writes;
    var once := Merge(existing, incoming);
    MergeWrites(existing, incoming);
    DictOfRepeat(once, existing, incoming);
    MergeAfterMerge(existing, incoming, incoming);
    DictOfDeterminate(Merge(once, incoming), once, writes);
  }

  /** An empty batch only removes repeated ids from the stored collection,
      and leaves a collection without repeats exactly as it was. */
  lemma MergeNoIncoming<I, P>(existing: seq<Record<I, P>>)
    ensures Ids(Merge(existing, [])) == Dedup(Ids(existing))
    ensures Unique(Ids(existing)) ==> Merge(existing, []) == existing
  {
    assert existing + [] == existing;
    MergeWrites(existing, []);
    if Unique(Ids(existing)) {
      DictOfSelf(existing);
      DictOfDeterminate(Merge(existing, []), existing, existing);
    }
  }

  /** The merged collection has one record per distinct id of the two batches. */
  lemma MergeSize<I, P>(existing: seq<Record<I, P>>, incoming: seq<Record<I, P>>)
    ensures |Merge(existing, incoming)| == |Elems(Ids(existing)) + Elems(Ids(incoming))|
  {
    UniqueCard(Ids(Merge(existing, incoming)));
    MergeIdSet(existing, incoming);
  }

  /** Merging two batches at once keeps one record for each id of the stored
      collection and of either batch. */
  lemma MergeTwoBatches<I, P>(existing: seq<Record<I, P>>, a: seq<Record<I, P>>, b: seq<Record<I, P>>)
    ensures Elems(Ids(Merge(existing, a + b))) == Elems(Ids(existing)) + Elems(Ids(a)) + Elems(Ids(b))
    ensures |Merge(existing, a + b)| == |Elems(Ids(existing)) + Elems(Ids(a)) + Elems(Ids(b))|
  {
    var ab := a + b;
    assert Elems(Ids(ab)) == Elems(Ids(a)) + Elems(Ids(b)) by {
      IdsAppend(a, b);
    }
    MergeSize(existing, ab);
    MergeIdSet(existing, ab);
  }

  /** Batches with disjoint ids lose nothing of each other, whichever is merged
      first: both orders store the same ids with the same records. */
  lemma MergeDisjointCommute<I, P>(existing: seq<Record<I, P>>, a: seq<Record<I, P>>, b: seq<Record<I, P>>)
    requires Elems(Ids(a)) !! Elems(Ids(b))
    ensures AsMap(Merge(Merge(existing, a), b)) == AsMap(Merge(Merge(existing, b), a))
    ensures Elems(Ids(Merge(Merge(existing, a), b))) == Elems(Ids(Merge(Merge(existing, b), a)))
  {
    var ab, ba := Merge(Merge(existing, a), b), Merge(Merge(existing, b), a);
    assert AsMap(ab) == (AsMap(existing) + AsMap(a)) + AsMap(b) by {
      MergeAsMap(Merge(existing, a), b);
      MergeAsMap(existing, a);
    }
    assert AsMap(ba) == (AsMap(existing) + AsMap(b)) + AsMap(a) by {
      MergeAsMap(Merge(existing, b), a);
      MergeAsMap(existing, b);
    }
    AsMapKeys(a);
    AsMapKeys(b);
    OverrideCommute(AsMap(existing), AsMap(a), AsMap(b));
    AsMapKeys(ab);
    AsMapKeys(ba);
  }

  /** Overriding with maps of disjoint domains in either order gives the same map. */
  lemma OverrideCommute<K, V>(m: map<K, V>, x: map<K, V>, y: map<K, V>)
    requires x.Keys !! y.Keys
    ensures (m + x) + y == (m + y) + x
  {
  }

  /** An incoming record with a known id replaces the stored one whole. */
  lemma OverrideExample()
    ensures Merge([Record(1, "a")], [Record(1, "b")]) == [Record(1, "b")]
  {
    var d := UpsertAll([], [Record(1, "a")]);
    assert [Record(1, "a")][..0] == [];
    assert d == [Record(1, "a")];
    assert [Record(1, "b")][..0] == [];
  }

  /** Records with different ids are both kept, existing first. */
  lemma UnionExample()
    ensures Merge([Record(1, "a")], [Record(2, "b")]) == [Record(1, "a"), Record(2, "b")]
  {
    var d := UpsertAll([], [Record(1, "a")]);
    assert [Record(1, "a")][..0] == [];
    assert d == [Record(1, "a")];
    assert [Record(2, "b")][..0] == [];
  }
}

=== FILE: merger.dfy ===
/**
 The sync merger: an insert-or-replace merge of an incoming batch of records
 into an existing collection, keyed by record id.

 The server builds an insertion-ordered dictionary from the existing records,
 writes every incoming record into it at its id, and returns the dictionary's
 values. A dictionary is modelled as a sequence of records with pairwise
 distinct ids, kept in key-insertion order; writing to a key that is present
 replaces its record in place, writing to a new key appends.
 */
module Merger {
  import opened Wrappers
  import opened Sequences

  /** A workout or personal record: its merge key and the rest of its fields,
      which the merge passes through without looking at them. */
  datatype Record<I, P> = Record(id: I, payload: P)

  /** The ids of a collection, in order. */
  ghost function Ids<I, P>(rs: seq<Record<I, P>>): seq<I> {
    seq(|rs|, k requires 0 <= k < |rs| => rs[k].id)
  }

  /** The last record with the given id: the one that a sequence of
      dictionary writes leaves behind for that key. */
  ghost function LastWith<I, P>(rs: seq<Record<I, P>>, id: I): (r: Record<I, P>)
    requires id in Ids(rs)
    ensures r.id == id
  {
    var n := |rs| - 1;
    assert Ids(rs) == Ids(rs[..n]) + [rs[n].id];
    if rs[n].id == id then rs[n] else LastWith(rs[..n], id)
  }

  /** The dictionary view of a collection: each id mapped to the last record
      carrying it. */
  ghost function AsMap<I, P>(rs: seq<Record<I, P>>): map<I, Record<I, P>> {
    map id | id in Ids(rs) :: LastWith(rs, id)
  }

  /**
   `dict` is the dictionary that writing the records of `writes` one by one
   into an empty dictionary produces: its keys are the ids of `writes` in
   order of first occurrence, and each key holds the last record written for it.
   */
  ghost predicate DictOf<I, P>(dict: seq<Record<I, P>>, writes: seq<Record<I, P>>) {
    && Unique(Ids(dict))
    && Ids(dict) == Dedup(Ids(writes))
    && forall k :: 0 <= k < |dict| ==> dict[k].id in Ids(writes) && dict[k] == LastWith(writes, dict[k].id)
  }

  /** Looks a key up in a dictionary: the position of the record with that id. */
  function Find<I(==), P>(dict: seq<Record<I, P>>, id: I): (pos: Option<nat>)
    ensures pos.Some? ==> pos.value < |dict| && dict[pos.value].id == id
    ensures pos.None? ==> id !in Ids(dict)
  {
    if dict == [] then None
    else
      assert Ids(dict) == [dict[0].id] + Ids(dict[1..]);
      if dict[0].id == id then Some(0)
      else match Find(dict[1..], id)
        case Some(k) => Some(k + 1)
        case None => None
  }

  /** One dictionary write, `dict[r.id] = r`: replaces the record with the same
      id where it stands, or appends `r` when its id is new. */
  function Upsert<I(==), P>(dict: seq<Record<I, P>>, r: Record<I, P>): (out: seq<Record<I, P>>)
    requires Unique(Ids(dict))
    ensures Unique(Ids(out))
    ensures r.id in Ids(dict) ==> Ids(out) == Ids(dict)
    ensures r.id !in Ids(dict) ==> Ids(out) == Ids(dict) + [r.id]
    ensures |dict| <= |out|
    ensures forall k :: 0 <= k < |out| && out[k].id == r.id ==> out[k] == r
    ensures forall k :: 0 <= k < |dict| && dict[k].id != r.id ==> out[k] == dict[k]
  {
    match Find(dict, r.id)
    case Some(k) =>
      assert forall j :: 0 <= j < |dict| ==> Ids(dict)[j] == dict[j].id;
      assert Ids(dict)[k] == r.id;
      assert Ids(dict[k := r]) == Ids(dict);
      dict[k := r]
    case None =>
      assert forall k :: 0 <= k < |dict| ==> Ids(dict)[k] == dict[k].id;
      assert Ids(dict + [r]) == Ids(dict) + [r.id];
      dict + [r]
  }

  /** Writes the records of `incoming` into `dict`, first to last. */
  function UpsertAll<I(==), P>(dict: seq<Record<I, P>>, incoming: seq<Record<I, P>>): (out: seq<Record<I, P>>)
    requires Unique(Ids(dict))
    ensures Unique(Ids(out))
  {
    if incoming == [] then dict
    else Upsert(UpsertAll(dict, incoming[..|incoming| - 1]), incoming[|incoming| - 1])
  }

  /**
   The merge of a sync call: a dictionary built from the existing records,
   then every incoming record written into it. The result holds each id of
   either batch exactly once, in first-occurrence order, with the last
   record written for it.
   */
  function Merge<I(==), P>(existing: seq<Record<I, P>>, incoming: seq<Record<I, P>>): (merged: seq<Record<I, P>>)
    ensures Unique(Ids(merged))
  {
    UpsertAll(UpsertAll([], existing), incoming)
  }

  /** The merge is the dictionary written by the existing records, then the incoming ones. */
  lemma MergeWrites<I, P>(existing: seq<Record<I, P>>, incoming: seq<Record<I, P>>)
    ensures DictOf(Merge(existing, incoming), existing + incoming)
  {
    UpsertAllBuilds([], [], existing);
    assert [] + existing == existing;
    UpsertAllBuilds(UpsertAll([], existing), existing, incoming);
  }

  /**
   The same merge as the server runs it: one loop filling the dictionary from
   the existing records, a second one writing the incoming records into it.
   */
  method MergeLoop<I(==), P>(existing: seq<Record<I, P>>, incoming: seq<Record<I, P>>) returns (merged: seq<Record<I, P>>)
    ensures merged == Merge(existing, incoming)
  {
    var dict: seq<Record<I, P>> := [];
    var i := 0;
    while i < |existing|
      invariant 0 <= i <= |existing|
      invariant Unique(Ids(dict))
      invariant dict == UpsertAll([], existing[..i])
    {
      assert existing[..i + 1][..i] == existing[..i];
      dict := Upsert(dict, existing[i]);
      i := i + 1;
    }
    assert existing[..i] == existing;
    var j := 0;
    while j < |incoming|
      invariant 0 <= j <= |incoming|
      invariant Unique(Ids(dict))
      invariant dict == UpsertAll(UpsertAll([], existing), incoming[..j])
    {
      assert incoming[..j + 1][..j] == incoming[..j];
      dict := Upsert(dict, incoming[j]);
      j := j + 1;
    }
    assert incoming[..j] == incoming;
    merged := dict;
  }

  // ----- Facts about ids and last writes -----

  lemma IdsAppend<I, P>(a: seq<Record<I, P>>, b: seq<Record<I, P>>)
    ensures Ids(a + b) == Ids(a) + Ids(b)
  {
  }

  lemma LastWithSnoc<I, P>(rs: seq<Record<I, P>>, x: Record<I, P>, id: I)
    requires id in Ids(rs + [x])
    ensures x.id != id ==> id in Ids(rs)
    ensures LastWith(rs + [x], id) == if x.id == id then x else LastWith(rs, id)
  {
    IdsAppend(rs, [x]);
    assert (rs + [x])[..|rs|] == rs;
  }

  /** A later batch decides the last write for every id it contains. */
  lemma {:induction false} LastWithAppend<I, P>(a: seq<Record<I, P>>, b: seq<Record<I, P>>, id: I)
    requires id in Ids(a) || id in Ids(b)
    ensures id in Ids(a + b)
    ensures id in Ids(b) ==> LastWith(a + b, id) == LastWith(b, id)
    ensures id !in Ids(b) ==> LastWith(a + b, id) == LastWith(a, id)
  {
    IdsAppend(a, b);
    if b != [] {
      var init, x := b[..|b| - 1], b[|b| - 1];
      assert b == init + [x];
      assert a + b == (a + init) + [x];
      IdsAppend(init, [x]);
      IdsAppend(a, init);
      LastWithSnoc(a + init, x, id);
      if x.id != id {
        LastWithAppend(a, init, id);
        if id in Ids(b) {
          LastWithSnoc(init, x, id);
        }
      } else {
        assert Ids(init + [x])[|init|] == x.id;
        LastWithSnoc(init, x, id);
      }
    } else {
      assert a + b == a;
    }
  }

  /** In a collection without repeated ids, every record is the last one with its id. */
  lemma {:induction false} LastWithUnique<I, P>(rs: seq<Record<I, P>>, k: int)
    requires Unique(Ids(rs))
    requires 0 <= k < |rs|
    ensures rs[k].id in Ids(rs)
    ensures LastWith(rs, rs[k].id) == rs[k]
  {
    var n := |rs| - 1;
    assert Ids(rs)[k] == rs[k].id;
    if k < n {
      assert Ids(rs)[n] == rs[n].id;
      assert rs[n].id != rs[k].id;
      assert Ids(rs[..n]) == Ids(rs)[..n];
      assert Unique(Ids(rs[..n]));
      LastWithUnique(rs[..n], k);
    }
  }

  // ----- The dictionary built by a sequence of writes -----

  /** Writing one more record keeps `DictOf` in step with the writes. */
  lemma UpsertStep<I, P>(dict: seq<Record<I, P>>, writes: seq<Record<I, P>>, x: Record<I, P>)
    requires DictOf(dict, writes)
    ensures DictOf(Upsert(dict, x), writes + [x])
  {
    var out := Upsert(dict, x);
    var t := writes + [x];
    IdsAppend(writes, [x]);
    DedupMember(Ids(writes));
    assert x.id in Ids(dict) <==> x.id in Ids(writes);
    if x.id in Ids(writes) {
      DedupSnocOld(Ids(writes), x.id);
    } else {
      DedupSnocNew(Ids(writes), x.id);
    }
    forall k | 0 <= k < |out|
      ensures out[k].id in Ids(t) && out[k] == LastWith(t, out[k].id)
    {
      assert Ids(out)[k] == out[k].id;
      assert out[k].id in Ids(out);
      if out[k].id != x.id {
        assert out[k].id in Ids(dict);
        assert out[k].id in Ids(writes);
      }
      assert Ids(t)[|writes|] == x.id;
      LastWithSnoc(writes, x, out[k].id);
    }
  }

  /** Writing a batch keeps `DictOf` in step with the writes. */
  lemma {:induction false} UpsertAllBuilds<I, P>(dict: seq<Record<I, P>>, writes: seq<Record<I, P>>, incoming: seq<Record<I, P>>)
    requires DictOf(dict, writes)
    ensures DictOf(UpsertAll(dict, incoming), writes + incoming)
  {
    if incoming == [] {
      assert writes + incoming == writes;
    } else {
      var init, x := incoming[..|incoming| - 1], incoming[|incoming| - 1];
      assert incoming == init + [x];
      UpsertAllBuilds(dict, writes, init);
      UpsertStep(UpsertAll(dict, init), writes + init, x);
      assert writes + incoming == (writes + init) + [x];
    }
  }

  /** A collection without repeated ids is its own dictionary. */
  lemma DictOfSelf<I, P>(rs: seq<Record<I, P>>)
    requires Unique(Ids(rs))
    ensures DictOf(rs, rs)
  {
    DedupOfUnique(Ids(rs));
    forall k | 0 <= k < |rs|
      ensures rs[k].id in Ids(rs) && rs[k] == LastWith(rs, rs[k].id)
    {
      LastWithUnique(rs, k);
    }
  }

  /** The writes determine the dictionary. */
  lemma DictOfDeterminate<I, P>(x: seq<Record<I, P>>, y: seq<Record<I, P>>, writes: seq<Record<I, P>>)
    requires DictOf(x, writes)
    requires DictOf(y, writes)
    ensures x == y
  {
    assert |x| == |Ids(x)| == |Ids(y)| == |y|;
    forall k | 0 <= k < |x|
      ensures x[k] == y[k]
    {
      assert Ids(x)[k] == x[k].id;
      assert Ids(y)[k] == y[k].id;
    }
  }

  /** Repeating the last batch of writes changes nothing. */
  lemma DictOfRepeat<I, P>(dict: seq<Record<I, P>>, prefix: seq<Record<I, P>>, batch: seq<Record<I, P>>)
    requires DictOf(dict, prefix + batch)
    ensures DictOf(dict, (prefix + batch) + batch)
  {
    var t := prefix + batch;
    IdsAppend(t, batch);
    IdsAppend(prefix, batch);
    DedupAbsorb(Ids(t), Ids(batch));
    forall k | 0 <= k < |dict|
      ensures dict[k].id in Ids(t + batch) && dict[k] == LastWith(t + batch, dict[k].id)
    {
      var id := dict[k].id;
      LastWithAppend(t, batch, id);
      if id in Ids(batch) {
        LastWithAppend(prefix, batch, id);
      }
    }
  }

  /** A dictionary has the same view as the writes that built it. */
  lemma DictOfAsMap<I, P>(dict: seq<Record<I, P>>, writes: seq<Record<I, P>>)
    requires DictOf(dict, writes)
    ensures AsMap(dict) == AsMap(writes)
  {
    DedupMember(Ids(writes));
    forall id | id in Ids(dict)
      ensures LastWith(dict, id) == LastWith(writes, id)
    {
      var k :| 0 <= k < |Ids(dict)| && Ids(dict)[k] == id;
      LastWithUnique(dict, k);
    }
  }

  /** The keys of the dictionary view are the ids of the collection. */
  lemma AsMapKeys<I, P>(rs: seq<Record<I, P>>)
    ensures AsMap(rs).Keys == Elems(Ids(rs))
  {
  }

  /** The view of a concatenation: the later collection wins on shared ids. */
  lemma AsMapAppend<I, P>(a: seq<Record<I, P>>, b: seq<Record<I, P>>)
    ensures AsMap(a + b) == AsMap(a) + AsMap(b)
  {
    IdsAppend(a, b);
    forall id | id in Ids(a + b)
      ensures LastWith(a + b, id) == (AsMap(a) + AsMap(b))[id]
    {
      LastWithAppend(a, b, id);
    }
  }

  /** Rebuilding a dictionary from a collection without repeated ids gives it back. */
  lemma BuildOfUnique<I, P>(rs: seq<Record<I, P>>)
    requires Unique(Ids(rs))
    ensures UpsertAll([], rs) == rs
  {
    UpsertAllBuilds([], [], rs);
    assert [] + rs == rs;
    DictOfSelf(rs);
    DictOfDeterminate(UpsertAll([], rs), rs, rs);
  }
}

=== FILE: registry.dfy ===
/**
 The user registry: the in-memory table of user profiles by nickname that
 every request reads or changes inside one critical section. Each operation
 here is one such critical section, modelled as a pure state transition.
 */
module UserRegistry {
  import opened Wrappers
  import opened Sequences
  import opened Merger
  import MergeLaws

  /** A user: the nickname it is stored under, its two record collections and
      the creation time, which a zero-value profile lacks. */
  datatype Profile<I, P> = Profile(
    nickname: string,
    workoutRecords: seq<Record<I, P>>,
    personalRecords: seq<Record<I, P>>,
    createdAt: Option<string>)

  /** The two record collections of a profile; both are merged the same way. */
  datatype Kind = Workouts | PersonalRecords {
    function Other(): Kind {
      match this
      case Workouts => PersonalRecords
      case PersonalRecords => Workouts
    }
  }

  function Collection<I, P>(p: Profile<I, P>, kind: Kind): seq<Record<I, P>> {
    match kind
    case Workouts => p.workoutRecords
    case PersonalRecords => p.personalRecords
  }

  function WithCollection<I, P>(p: Profile<I, P>, kind: Kind, rs: seq<Record<I, P>>): Profile<I, P> {
    match kind
    case Workouts => p.(workoutRecords := rs)
    case PersonalRecords => p.(personalRecords := rs)
  }

  /**
   The user table: profiles by nickname, together with the order in which the
   nicknames were first stored, which is the order the table lists them in.
   */
  datatype Registry<I, P> = Registry(order: seq<string>, profiles: map<string, Profile<I, P>>)

  /** A profile as the server creates and keeps it. */
  ghost predicate WellFormed<I, P>(nickname: string, p: Profile<I, P>) {
    && p.nickname == nickname
    && p.createdAt.Some?
    && Unique(Ids(p.workoutRecords))
    && Unique(Ids(p.personalRecords))
  }

  /** The table lists every stored nickname once, and every profile is well formed. */
  ghost predicate Valid<I, P>(reg: Registry<I, P>) {
    && Unique(reg.order)
    && (forall n :: n in reg.order <==> n in reg.profiles)
    && (forall n :: n in reg.profiles ==> WellFormed(n, reg.profiles[n]))
  }

  function Empty<I, P>(): Registry<I, P> {
    Registry([], map[])
  }

  /** What a read of an unknown nickname answers: no records, no creation time. */
  function ZeroProfile<I, P>(nickname: string): Profile<I, P> {
    Profile(nickname, [], [], None)
  }

  /** The profile stored for a nickname seen for the first time. */
  function NewProfile<I, P>(nickname: string, now: string): Profile<I, P> {
    Profile(nickname, [], [], Some(now))
  }

  function Exists<I, P>(reg: Registry<I, P>, nickname: string): bool {
    nickname in reg.profiles
  }

  /** Read-only probe: the stored profile, or the zero-value profile. */
  function Get<I, P>(reg: Registry<I, P>, nickname: string): Profile<I, P> {
    if nickname in reg.profiles then reg.profiles[nickname] else ZeroProfile(nickname)
  }

  function ListNicknames<I, P>(reg: Registry<I, P>): seq<string> {
    reg.order
  }

  /**
   Stores a new profile for an unknown nickname, stamped with `now`; a known
   nickname's profile is left exactly as it is.
   */
  function GetOrCreate<I, P>(reg: Registry<I, P>, nickname: string, now: string): (r: Registry<I, P>)
    ensures Exists(r, nickname)
    ensures Exists(reg, nickname) ==> r == reg
    ensures !Exists(reg, nickname) ==> Get(r, nickname) == NewProfile(nickname, now)
    ensures !Exists(reg, nickname) ==> ListNicknames(r) == ListNicknames(reg) + [nickname]
    ensures forall m :: m != nickname ==> Exists(r, m) == Exists(reg, m) && Get(r, m) == Get(reg, m)
  {
    if nickname in reg.profiles then reg
    else Registry(reg.order + [nickname], reg.profiles[nickname := NewProfile(nickname, now)])
  }

  /**
   A sync call: makes sure the user exists, merges the batch into one of its
   collections, and answers with the collection as stored. Nothing else in
   the table changes.
   */
  function SyncRecords<I(==), P>(reg: Registry<I, P>, nickname: string, kind: Kind, incoming: seq<Record<I, P>>, now: string)
    : (res: (Registry<I, P>, seq<Record<I, P>>))
    ensures var before := if Exists(reg, nickname) then Get(reg, nickname) else NewProfile(nickname, now);
      && Exists(res.0, nickname)
      && res.1 == Collection(Get(res.0, nickname), kind)
      && res.1 == Merge(Collection(before, kind), incoming)
      && Collection(Get(res.0, nickname), kind.Other()) == Collection(before, kind.Other())
      && Get(res.0, nickname).createdAt == before.createdAt
      && Get(res.0, nickname).nickname == before.nickname
    ensures ListNicknames(res.0) == ListNicknames(GetOrCreate(reg, nickname, now))
    ensures forall m :: m != nickname ==> Exists(res.0, m) == Exists(reg, m) && Get(res.0, m) == Get(reg, m)
  {
    var created := GetOrCreate(reg, nickname, now);
    var p := created.profiles[nickname];
    var merged := Merge(Collection(p, kind), incoming);
    (Registry(created.order, created.profiles[nickname := WithCollection(p, kind, merged)]), merged)
  }

  // ----- Reads -----

  /** `exists` answers membership in the listed nicknames. */
  lemma ExistsMatchesList<I, P>(reg: Registry<I, P>, nickname: string)
    requires Valid(reg)
    ensures Exists(reg, nickname) <==> nickname in ListNicknames(reg)
  {
  }

  /** The listing names every stored user exactly once. */
  lemma ListNicknamesExact<I, P>(reg: Registry<I, P>)
    requires Valid(reg)
    ensures Unique(ListNicknames(reg))
    ensures Elems(ListNicknames(reg)) == reg.profiles.Keys
  {
  }

  /** The probe never invents a user: an unknown nickname reads as the
      zero-value profile, a known one as its stored profile, stamped. */
  lemma GetProbe<I, P>(reg: Registry<I, P>, nickname: string)
    requires Valid(reg)
    ensures Get(reg, nickname).nickname == nickname
    ensures Get(reg, nickname).createdAt.Some? <==> Exists(reg, nickname)
    ensures !Exists(reg, nickname) ==> Get(reg, nickname) == ZeroProfile(nickname)
  {
  }

  // ----- Creation -----

  /** Creating twice is creating once: the second call keeps the first stamp. */
  lemma GetOrCreateIdempotent<I, P>(reg: Registry<I, P>, nickname: string, first: string, second: string)
    ensures GetOrCreate(GetOrCreate(reg, nickname, first), nickname, second) == GetOrCreate(reg, nickname, first)
  {
  }

  lemma GetOrCreatePreservesValid<I, P>(reg: Registry<I, P>, nickname: string, now: string)
    requires Valid(reg)
    ensures Valid(GetOrCreate(reg, nickname, now))
  {
  }

  // ----- Sync -----

  lemma SyncPreservesValid<I, P>(reg: Registry<I, P>, nickname: string, kind: Kind, incoming: seq<Record<I, P>>, now: string)
    requires Valid(reg)
    ensures Valid(SyncRecords(reg, nickname, kind, incoming, now).0)
  {
  }

  /**
   The stored collection is what writing the old collection, then the batch,
   into a dictionary keyed by id gives: each id once, in order of first
   appearance, with the last record written for it.
   */
  lemma SyncStoresLastWrites<I, P>(reg: Registry<I, P>, nickname: string, kind: Kind, incoming: seq<Record<I, P>>, now: string)
    ensures var before := if Exists(reg, nickname) then Get(reg, nickname) else NewProfile(nickname, now);
      DictOf(SyncRecords(reg, nickname, kind, incoming, now).1, Collection(before, kind) + incoming)
  {
    var before := if Exists(reg, nickname) then Get(reg, nickname) else NewProfile(nickname, now);
    MergeWrites(Collection(before, kind), incoming);
  }

  /** Sending the same batch twice leaves the table, and the answer, as sending it once. */
  lemma SyncIdempotent<I, P>(reg: Registry<I, P>, nickname: string, kind: Kind, incoming: seq<Record<I, P>>, first: string, second: string)
    ensures var once := SyncRecords(reg, nickname, kind, incoming, first);
      SyncRecords(once.0, nickname, kind, incoming, second) == once
  {
    var once := SyncRecords(reg, nickname, kind, incoming, first);
    var created := GetOrCreate(reg, nickname, first);
    var p := created.profiles[nickname];
    MergeLaws.MergeIdempotent(Collection(p, kind), incoming);
    var twice := SyncRecords(once.0, nickname, kind, incoming, second);
    assert twice.1 == once.1;
    assert once.0.profiles[nickname := WithCollection(once.0.profiles[nickname], kind, once.1)] == once.0.profiles;
  }

  /**
   Two sync calls for the same user and kind, one after the other, lose no
   record of either batch: the collection holds every id of the stored
   collection and of both batches, once each, with the last record sent for it.
   */
  lemma SerializedSyncsLoseNothing<I, P>(reg: Registry<I, P>, nickname: string, kind: Kind,
                                        a: seq<Record<I, P>>, b: seq<Record<I, P>>, t1: string, t2: string)
    ensures var before := if Exists(reg, nickname) then Get(reg, nickname) else NewProfile(nickname, t1);
      var after := SyncRecords(SyncRecords(reg, nickname, kind, a, t1).0, nickname, kind, b, t2);
      && after.1 == Merge(Collection(before, kind), a + b)
      && Elems(Ids(after.1)) == Elems(Ids(Collection(before, kind))) + Elems(Ids(a)) + Elems(Ids(b))
      && |after.1| == |Elems(Ids(Collection(before, kind))) + Elems(Ids(a)) + Elems(Ids(b))|
  {
    var before := if Exists(reg, nickname) then Get(reg, nickname) else NewProfile(nickname, t1);
    var c := Collection(before, kind);
    var after := SyncTwice(reg, nickname, kind, a, b, t1, t2);
    MergeLaws.MergeTwoBatches(c, a, b);
  }

  /** The second of two syncs answers the merge of the stored collection with both batches. */
  lemma SyncTwice<I, P>(reg: Registry<I, P>, nickname: string, kind: Kind,
                       a: seq<Record<I, P>>, b: seq<Record<I, P>>, t1: string, t2: string)
    returns (after: seq<Record<I, P>>)
    ensures var before := if Exists(reg, nickname) then Get(reg, nickname) else NewProfile(nickname, t1);
      && after == SyncRecords(SyncRecords(reg, nickname, kind, a, t1).0, nickname, kind, b, t2).1
      && after == Merge(Collection(before, kind), a + b)
  {
    var before := if Exists(reg, nickname) then Get(reg, nickname) else NewProfile(nickname, t1);
    var first := SyncRecords(reg, nickname, kind, a, t1);
    assert Exists(first.0, nickname);
    var mid := Get(first.0, nickname);
    assert Collection(mid, kind) == Merge(Collection(before, kind), a);
    after := SyncRecords(first.0, nickname, kind, b, t2).1;
    assert after == Merge(Collection(mid, kind), b);
    MergeLaws.MergeSequential(Collection(before, kind), a, b);
  }
}

=== FILE: sequences.dfy ===
/**
 Facts about sequences used as ordered key lists: uniqueness, the
 keep-first-occurrence de-duplication that describes the key order of an
 insertion-ordered dictionary, and filtering out keys already seen.
 */
module Sequences {

  /** No element occurs twice. */
  ghost predicate Unique<T>(xs: seq<T>) {
    forall i, j :: 0 <= i < j < |xs| ==> xs[i] != xs[j]
  }

  /** The elements of a sequence, as a set. */
  ghost function Elems<T>(xs: seq<T>): set<T> {
    set x | x in xs
  }

  /**
   Keeps the first occurrence of every element, in order of first occurrence:
   the key order of a dictionary into which `xs` is inserted one by one.
   */
  ghost function Dedup<T>(xs: seq<T>): seq<T>
  {
    if xs == [] then []
    else
      var init, last := xs[..|xs| - 1], xs[|xs| - 1];
      assert xs == init + [last];
      if last in init then Dedup(init) else Dedup(init) + [last]
  }

  /** The elements of `xs` that do not occur in `seen`, in their original order. */
  ghost function Without<T>(xs: seq<T>, seen: seq<T>): seq<T>
  {
    if xs == [] then []
    else
      var init, last := xs[..|xs| - 1], xs[|xs| - 1];
      assert xs == init + [last];
      if last in seen then Without(init, seen) else Without(init, seen) + [last]
  }

  /** `Dedup` keeps exactly the elements of its argument. */
  lemma {:induction false} DedupMember<T>(xs: seq<T>)
    ensures forall x :: x in Dedup(xs) <==> x in xs
  {
    if xs != [] {
      var init, last := xs[..|xs| - 1], xs[|xs| - 1];
      assert xs == init + [last];
      DedupMember(init);
    }
  }

  /** `Dedup` never repeats an element. */
  lemma {:induction false} DedupUnique<T>(xs: seq<T>)
    ensures Unique(Dedup(xs))
  {
    if xs != [] {
      var init, last := xs[..|xs| - 1], xs[|xs| - 1];
      assert xs == init + [last];
      DedupUnique(init);
      DedupMember(init);
    }
  }

  /** `Without` keeps exactly the elements of `xs` that are not in `seen`. */
  lemma {:induction false} WithoutMembers<T>(xs: seq<T>, seen: seq<T>)
    ensures forall x :: x in Without(xs, seen) <==> x in xs && x !in seen
  {
    if xs != [] {
      var init, last := xs[..|xs| - 1], xs[|xs| - 1];
      assert xs == init + [last];
      WithoutMembers(init, seen);
    }
  }

  /** De-duplicating a sequence without repeats changes nothing. */
  lemma {:induction false} DedupOfUnique<T>(xs: seq<T>)
    requires Unique(xs)
    ensures Dedup(xs) == xs
  {
    if xs != [] {
      var init, last := xs[..|xs| - 1], xs[|xs| - 1];
      assert xs == init + [last];
      assert Unique(init);
      assert last !in init;
      DedupOfUnique(init);
    }
  }

  /** Appending to a de-duplicated prefix is the same as de-duplicating the whole. */
  lemma {:induction false} DedupAppendDedup<T>(a: seq<T>, b: seq<T>)
    ensures Dedup(Dedup(a) + b) == Dedup(a + b)
  {
    if b == [] {
      assert a + b == a;
      assert Dedup(a) + b == Dedup(a);
      DedupUnique(a);
      DedupOfUnique(Dedup(a));
    } else {
      var init, last := b[..|b| - 1], b[|b| - 1];
      assert b == init + [last];
      assert Dedup(a) + b == (Dedup(a) + init) + [last];
      assert a + b == (a + init) + [last];
      DedupAppendDedup(a, init);
      DedupMember(a);
      assert last in Dedup(a) + init <==> last in a + init;
      DedupSnocSame(Dedup(a) + init, a + init, last);
    }
  }

  /** Appending elements that already occur leaves the de-duplication unchanged. */
  lemma {:induction false} DedupAbsorb<T>(a: seq<T>, c: seq<T>)
    requires forall x :: x in c ==> x in a
    ensures Dedup(a + c) == Dedup(a)
  {
    if c == [] {
      assert a + c == a;
    } else {
      var init, last := c[..|c| - 1], c[|c| - 1];
      assert c == init + [last];
      assert a + c == (a + init) + [last];
      DedupAbsorb(a, init);
      assert last in a + init;
      DedupSnocOld(a + init, last);
    }
  }

  /**
   The key order of `a + b`: the keys of `a` in first-occurrence order,
   then the keys of `b` not in `a`, in first-occurrence order.
   */
  lemma {:induction false} DedupSplit<T>(a: seq<T>, b: seq<T>)
    ensures Dedup(a + b) == Dedup(a) + Dedup(Without(b, a))
  {
    if b == [] {
      assert a + b == a;
    } else {
      var init, last := b[..|b| - 1], b[|b| - 1];
      assert b == init + [last];
      assert a + b == (a + init) + [last];
      DedupSplit(a, init);
      if last in a {
        WithoutSnocSeen(init, a, last);
        assert last in a + init;
        DedupSnocOld(a + init, last);
      } else {
        WithoutSnocNew(init, a, last);
        WithoutMember(init, a, last);
        DedupSplitStep(a + init, a, Without(init, a), last);
      }
    }
  }

  /** The step of `DedupSplit` for an element not among the keys of `a`, with the
      concatenations abstracted into plain sequences. */
  lemma DedupSplitStep<T>(xs: seq<T>, a: seq<T>, w: seq<T>, last: T)
    requires Dedup(xs) == Dedup(a) + Dedup(w)
    requires last in xs <==> last in w
    ensures Dedup(xs + [last]) == Dedup(a) + Dedup(w + [last])
  {
    if last in w {
      DedupSnocOld(xs, last);
      DedupSnocOld(w, last);
    } else {
      DedupSnocNew(xs, last);
      DedupSnocNew(w, last);
      assert (Dedup(a) + Dedup(w)) + [last] == Dedup(a) + (Dedup(w) + [last]);
    }
  }

  /** De-duplicating one more element that already occurs. */
  lemma DedupSnocOld<T>(xs: seq<T>, x: T)
    requires x in xs
    ensures Dedup(xs + [x]) == Dedup(xs)
  {
    assert (xs + [x])[..|xs|] == xs;
  }

  /** De-duplicating one more element that is new. */
  lemma DedupSnocNew<T>(xs: seq<T>, x: T)
    requires x !in xs
    ensures Dedup(xs + [x]) == Dedup(xs) + [x]
  {
    assert (xs + [x])[..|xs|] == xs;
  }

  /** Two sequences with the same de-duplication and the same membership of `x`
      still agree after appending `x`. */
  lemma DedupSnocSame<T>(xs: seq<T>, ys: seq<T>, x: T)
    requires Dedup(xs) == Dedup(ys)
    requires x in xs <==> x in ys
    ensures Dedup(xs + [x]) == Dedup(ys + [x])
  {
    if x in xs {
      DedupSnocOld(xs, x);
      DedupSnocOld(ys, x);
    } else {
      DedupSnocNew(xs, x);
      DedupSnocNew(ys, x);
    }
  }

  /** Filtering one more element that is among the seen ones. */
  lemma WithoutSnocSeen<T>(xs: seq<T>, seen: seq<T>, x: T)
    requires x in seen
    ensures Without(xs + [x], seen) == Without(xs, seen)
  {
    assert (xs + [x])[..|xs|] == xs;
  }

  /** Filtering one more element that is not among the seen ones. */
  lemma WithoutSnocNew<T>(xs: seq<T>, seen: seq<T>, x: T)
    requires x !in seen
    ensures Without(xs + [x], seen) == Without(xs, seen) + [x]
  {
    assert (xs + [x])[..|xs|] == xs;
  }

  /** Membership in `Without`, for one element. */
  lemma WithoutMember<T>(xs: seq<T>, seen: seq<T>, x: T)
    ensures x in Without(xs, seen) <==> x in xs && x !in seen
  {
    WithoutMembers(xs, seen);
  }

  /** A sequence without repeats has as many elements as its element set. */
  lemma {:induction false} UniqueCard<T>(xs: seq<T>)
    requires Unique(xs)
    ensures |Elems(xs)| == |xs|
  {
    if xs != [] {
      var init, last := xs[..|xs| - 1], xs[|xs| - 1];
      assert xs == init + [last];
      assert Unique(init);
      UniqueCard(init);
      assert last !in Elems(init);
      assert Elems(xs) == Elems(init) + {last};
    }
  }
}

=== FILE: wrappers.dfy ===
/** Optional values: an absent JSON field, a null timestamp, a failed lookup. */
module Wrappers {

  datatype Option<+T> = None | Some(value: T) {

    /** Returns the wrapped value, or `default` when there is none. */
    function GetOr(default: T): T {
      match this
      case Some(v) => v
      case None => default
    }
  }
}
